=== FILE: README.md ===
# WebP batch compressor — a Dafny model of its size search

The program walks a folder and turns each PNG, JPEG and WebP file into a WebP
file that should fit a size budget (100 KB by default). This project models
its core:

- `compress_image`, which first pre-shrinks images whose longer side is over
  2048 pixels (Phase 0). It then encodes once at the requested quality, and
  bisects the quality over the bracket [70, 98] while the file is over budget
  (Phase 1). If the file is still too large, it downscales the Phase-0 image by
  0.9, 0.8, … at the quality Phase 1 left behind (Phase 2). Finally it reports
  the size, quality and dimensions.
- `process_image`, which decides from a file name whether to convert the file.
  It also derives the output name: the root from `os.path.splitext` followed by
  `.webp`.

The WebP codec is an oracle parameter, `Encoder = (quality, dims) -> bytes`.
Nothing is assumed about the sizes it returns (in particular not monotonicity
in quality), but it is assumed that every save succeeds.
PIL's `thumbnail` is a second parameter. It is assumed to keep within the
original, bring the longer side to at most 2048 and keep non-empty sides
non-empty. A run is the sequence of encodes it makes (`Attempt`s), plus either
the reported line (`Compressed`) or a resize error (`ResizeFailed`).

Modules:

- `Encoding`: dimensions, the encoder oracle and the budget test.
- `Resize`: Phase 0 and the integer downscale arithmetic.
- `QualitySearch`: Phase 1.
- `Downscale`: Phase 2.
- `Compress`: the whole run.
- `CompressProperties`: properties of a whole run.
- `FileNames`: the name filter and the output name.

Behaviour of the code worth noting:

- Phase 2 tries five scales: 0.9, 0.8, 0.7, 0.6 and 0.5. The guard `scale_factor > 0.5` still
  admits the float 0.5000000000000001 that four subtractions of 0.1 leave.
- The printed dimensions are those of the Phase-0 image, even when Phase 2
  wrote a smaller file (`CompressProperties.ReportedDimsArePhaseZero`).
- The requested quality is never clamped. The first encode uses it as given;
  only Phase 1's probes are guaranteed to lie inside the bracket [70, 98].
- Because a fitting probe ends the loop, the lower end of the bracket never
  moves while the loop runs. The probes are therefore exactly 84, 77, 73, 71,
  up to the first that fits, and Phase 2 always runs at quality 71.

## Model

| member | source | states |
|---|---|---|
| Encoding.LongSide | main.py:16 | `max(img.size)` is one of the two sides and at least both |
| Encoding.WholeKilobyteBudget | main.py:29-33 | for a whole-kilobyte budget, `size / 1024 > max_size_kb` holds iff size exceeds `max_size_kb * 1024` bytes, and fitting means at most that many bytes |
| Resize.PreShrink | main.py:14-17 | Phase 0 leaves images with longer side ≤ 2048 unchanged; otherwise the result fits inside the original, its longer side is at most 2048 and non-empty sides stay non-empty |
| Resize.ScaledMonotone | main.py:45-51 | a scaled copy fits inside the image, and a smaller factor never gives a larger copy |
| Resize.ScaledShrinks | main.py:47 | below factor one, every non-empty side strictly shrinks under `int(dim * scale_factor)` |
| Resize.ScaledNonEmpty | main.py:47-48 | a scaled side is non-empty iff side × tenths ≥ 10; sides of at least 2 pixels survive every factor Phase 2 uses |
| QualitySearch.Bisect | main.py:33-41 | the bisection loop keeps its bracket inside the start bracket, exits only through its guard, probes strictly inside the bracket on the same image, stops at the first fit, and makes at most `hi - lo` probes |
| QualitySearch.LadderFrom | main.py:32-41 | reference definition of the probes: the ladder 84, 77, 73, 71 walked down to the first fitting rung; it ends over budget only after the whole ladder |
| QualitySearch.BisectFollowsLadder | main.py:32-41 | the bisection from [70, 98] makes exactly the ladder's probes; if it ends over budget, the bracket is [70, 71] |
| QualitySearch.SearchQuality | main.py:27-41 | Phase 1 probes iff the first encode is over budget; probe k is at `Ladder[k]` on the Phase-0 image; the requested quality survives only if the first encode fits; ending over budget means all four rungs were tried and quality is 71 |
| QualitySearch.SearchQualityFollowsLadder | main.py:32-41 | Phase 1's probes equal the reference ladder (none if the first encode fits) |
| Downscale.Shrink | main.py:46-51 | the loop from factor `tenths`: attempt i scales the Phase-0 image by `tenths - i` tenths at the unchanged quality; it stops at the first fit; it is a no-op within budget; over budget without an error it tries every factor; every attempt is of a non-empty image, so a resize to a zero side stops the loop with an error instead of being encoded |
| Downscale.DownscaleLoop | main.py:44-51 | Phase 2: at most five attempts at scales 9/10 … 5/10 of the Phase-0 image, each non-empty and within it; a no-op within budget; its resize never fails for images of at least 2×2 |
| Downscale.ShrinkFacts | main.py:47-48 | attempts from factors at most one fit inside the image, and sides ≥ 2 never scale to zero |
| Downscale.AttemptsShrink | main.py:45-51 | later Phase-2 attempts are never larger than earlier ones |
| Compress.Search | main.py:25-53 | after Phase 0 a run makes between 1 and 10 encodes, starting with the given first encode, and never fails in Phase 2's resize for images of at least 2×2 |
| Compress.SearchReportsLastEncode | main.py:53 | the reported size and quality are those of the last encode |
| Compress.ReportShowsLastEncode | main.py:53 | the printed line of `compress_image` shows the last encode's size and quality and the Phase-0 dimensions |
| Compress.CompressImage | main.py:8-53 | a run makes 1 to 10 encodes; the first is at the requested, unclamped quality on the Phase-0 image; the report names the Phase-0 dimensions; Phase-0 images of at least 2×2 never fail in Phase 2's resize |
| CompressProperties.SearchStopsAtFirstFit | main.py:33-50 | every encode but the last was over budget, and a run ending in a resize error ends over budget |
| CompressProperties.StopsAtFirstFit | main.py:33-50 | the same for `compress_image` as a whole |
| CompressProperties.ExactTrace | main.py:32-51 | the exact encode sequence: 84, 77, 73, 71 on the Phase-0 image, then scales 9/10, 8/10, … at quality 71; after an over-budget first encode the next probe is 84 |
| CompressProperties.GracefulDegrade | main.py:44-53 | a run that reports a size still over budget has spent all ten encodes |
| CompressProperties.EarlyExit | main.py:27-44 | if the first encode fits, the run is that one encode, reported with the requested quality |
| CompressProperties.EncodesWithinInput | main.py:15-49 | every encode is the oracle's answer for its settings and is of an image no larger than the input |
| CompressProperties.DimensionsNeverGrow | main.py:44-49 | each encode is of an image no larger than any earlier one |
| CompressProperties.ReportedDimsArePhaseZero | main.py:53 | once Phase 2 has run, the printed dimensions (Phase 0) are wider than the file actually written |
| FileNames.Lower | main.py:60 | `lower()` keeps the length, leaves no upper-case letter, turns each upper-case letter into the same letter in lower case, and keeps every other character |
| FileNames.LowerIdempotent | main.py:60 | lowering twice is lowering once |
| FileNames.ImageNameMatchesSuffix | main.py:60 | a name is accepted iff its lower-case form ends in one of `.png`, `.jpg`, `.jpeg`, `.webp` |
| FileNames.ImageFilterIgnoresCase | main.py:60 | a name passes the suffix filter iff its lower-case form does |
| FileNames.RFind | main.py:62 | `rfind` gives -1 or an index of the character with none after it |
| FileNames.NonDotIn | main.py:62 | the leading-dot scan of `splitext` holds iff some character in the range is not a dot |
| FileNames.SplitExt | main.py:62 | `splitext` splits the name into root + extension that concatenate back; the extension is empty or a dot followed by no dots and no slashes |
| FileNames.SplitExtFindsExtension | main.py:62 | `splitext` finds an extension iff the last path component has a dot preceded by a non-dot character; the extension then starts at the last dot |
| FileNames.SplitExtOfStemAndExt | main.py:62 | a stem with a non-dot character plus a dot-led extension splits back into exactly those parts |
| FileNames.OutputName | main.py:62 | the output name ends in `.webp` and is at most five characters longer than the input name |
| FileNames.ImageSuffixShape | main.py:60 | a name part that lowers to an image suffix is itself a dot followed by non-dot, non-slash characters |
| FileNames.OutputNameReplacesImageExtension | main.py:60-62 | for an accepted name with a non-dot stem, the output name replaces the matched extension, in whatever case, by `.webp` |
| FileNames.DotStemAppends | main.py:60-62 | for an accepted name whose last component has only dots before the matched suffix, `splitext` finds no extension and the output name is the whole name plus `.webp` |
| FileNames.SameStemSameOutput | main.py:60-62 | entries with the same stem and different image suffixes get the same output name, the stem plus `.webp`, so their conversions write the same file |
| FileNames.OutputNameOfImage | main.py:60-62 | for every image suffix an entry ends in, the output name replaces that suffix by `.webp` when the last component has a non-dot stem, and appends `.webp` otherwise |
| FileNames.DotFileKeepsName | main.py:60-62 | `.png` is accepted and becomes `.png.webp` |
| FileNames.DotsOnlyStemKeepsName | main.py:62 | `..jpeg` becomes `..jpeg.webp` |
| FileNames.ProcessImage | main.py:59-63 | an entry is converted iff its lower-case name ends in an image suffix; then its output is the name with that suffix replaced by `.webp` when the last component has a non-dot stem before it, and the name plus `.webp` otherwise |

## Left out

- Encoder failures are not modelled: the oracle always returns a size. The unclamped requested quality goes straight to the codec (main.py:27), and a save the codec refused would end the request with an error. The "never fails" promises of `Compress.Search`, `Compress.CompressImage` and `Downscale.DownscaleLoop` cover only Phase 2's resize.
- Image decoding, RGB conversion, LANCZOS resampling and the WebP codec are foreign code. The encoder is an oracle parameter, and `thumbnail` is a parameter with an assumed contract (`Resize.ThumbnailFits`).
- The torch tensor round trip and device choice (main.py:9, 20-26) do not change the pixels the model sees, so they are left out.
- Filesystem I/O is not modelled: opening files, `getsize`, `makedirs`, `listdir`, `os.path.join` and the hard-coded folders. Each encode's byte count comes from the oracle.
- The `ThreadPoolExecutor` fan-out and the re-raising of worker exceptions are concurrency and are not modelled.
- Each `compress_image` run is modelled as if it alone wrote its output path. That holds only when no other accepted entry has the same output name. `photo.png` and `photo.jpg` both become `photo.webp` (`FileNames.SameStemSameOutput`), and so do `a.png` and `a.PNG` on a case-sensitive file system. Two such runs save to and measure the same file, so the later one overwrites the earlier one's output. Under the pool, one run's `getsize` can also read the other's file. `Encoding.Measured` and `CompressProperties.EncodesWithinInput` assume no such collision.
- Floating-point scale factors are modelled as tenths 9..5 with floor division. This is exact for the sides Phase 0 allows (see `Resize.Scaled`), but not for arbitrary floats.
- FileNames.Lower: lowers ASCII letters only; Python's Unicode case mapping is not modelled.
- FileNames.SplitExt: models `posixpath`, whose only separator is `/`. Windows `ntpath` also treats `\` as a separator. Names from `os.listdir` contain no separator, so this does not change `process_image`.
- The `.2f` formatting of the printed size, and the base name in the printed line, are left out. `Compress.Report` keeps the byte count.
- Zero-sized images: an image with an empty side reaching an encode is not treated as an error. Only the resize to a zero side in Phase 2 is modelled as failing.

=== FILE: compress.dfy ===
/** `compress_image` end to end: Phase 0 pre-shrink, one encode at the
    requested quality, Phase 1 quality bisection, Phase 2 downscale, and the
    line it reports. */
module Compress {
  import opened Encoding
  import opened Resize
  import opened QualitySearch
  import opened Downscale

  /** What the final `print` shows: the size of the last encode, the value of
      `quality`, and `img.width x img.height`. */
  datatype Report = Report(bytes: nat, quality: int, dims: Dims)

  /** A run either finishes and reports, or stops when Pillow refuses to resize
      to an empty side. Either way `attempts` lists every encode in order; the
      output file holds the last one. */
  datatype Outcome =
    | Compressed(attempts: seq<Attempt>, report: Report)
    | ResizeFailed(attempts: seq<Attempt>)

  /** The most encodes one image can cost: 1 + 4 + 5. */
  const MaxEncodes: nat := 1 + |Ladder| + 5

  /** The thumbnail oracle behaves as PIL's `thumbnail` on this image. */
  predicate ThumbnailAssumed(size: Dims, thumbnail: Dims -> Dims) {
    LongSide(size) > MaxDimension ==> ThumbnailFits(size, thumbnail(size))
  }

  /** The run assembled from its parts: the first encode, Phase 1's result
      and Phase 2's result. The report takes the size Phase 2 ended with, the
      quality Phase 1 ended with, and `img`'s dimensions. */
  function Assemble(first: Attempt, p1: Phase1, p2: Phase2, img: Dims): Outcome {
    var attempts := [first] + p1.probes + p2.attempts;
    if p2.rejected then ResizeFailed(attempts)
    else Compressed(attempts, Report(p2.bytes, p1.quality, img))
  }

  /** The three phases on the Phase-0 image `img`, after the first encode. */
  function Search(enc: Encoder, img: Dims, first: Attempt, maxKB: real): (r: Outcome)
    requires first.dims == img
    ensures 1 <= |r.attempts| <= MaxEncodes && r.attempts[0] == first
    ensures r.Compressed? ==> r.report.dims == img
    ensures img.width >= 2 && img.height >= 2 ==> r.Compressed?
  {
    var p1 := SearchQuality(enc, img, maxKB, first.quality, first.bytes);
    Assemble(first, p1, DownscaleLoop(enc, img, p1.quality, maxKB, p1.bytes), img)
  }

  /** The last encode of a run carries the size and quality the report shows,
      when Phase 1 and Phase 2 each end on their own last encode and Phase 2
      keeps Phase 1's quality. */
  lemma AssembledReportIsLastEncode(first: Attempt, p1: Phase1, p2: Phase2, img: Dims)
    requires p1.probes == [] ==> p1.quality == first.quality && p1.bytes == first.bytes
    requires p1.probes != [] ==>
               var l := p1.probes[|p1.probes| - 1]; p1.quality == l.quality && p1.bytes == l.bytes
    requires p2.bytes == if p2.attempts == [] then p1.bytes else p2.attempts[|p2.attempts| - 1].bytes
    requires forall i :: 0 <= i < |p2.attempts| ==> p2.attempts[i].quality == p1.quality
    ensures var r := Assemble(first, p1, p2, img);
            r.Compressed? ==>
              var last := r.attempts[|r.attempts| - 1];
              r.report == Report(last.bytes, last.quality, img)
  {
    var r := Assemble(first, p1, p2, img);
    LastOfJoin(first, p1.probes, p2.attempts);
    if r.Compressed? {
      var last := r.attempts[|r.attempts| - 1];
      assert r.report == Report(p2.bytes, p1.quality, img);
      assert last.bytes == p2.bytes && last.quality == p1.quality;
    }
  }

  /** The report names the last encode's size and quality. */
  lemma SearchReportsLastEncode(enc: Encoder, img: Dims, first: Attempt, maxKB: real)
    requires first.dims == img
    ensures var r := Search(enc, img, first, maxKB);
            r.Compressed? ==>
              var last := r.attempts[|r.attempts| - 1];
              r.report == Report(last.bytes, last.quality, img)
  {
    var p1 := SearchQuality(enc, img, maxKB, first.quality, first.bytes);
    var p2 := DownscaleLoop(enc, img, p1.quality, maxKB, p1.bytes);
    AssembledReportIsLastEncode(first, p1, p2, img);
  }

  /** The printed line: the size and quality of the last encode, and the
      Phase-0 dimensions. */
  lemma ReportShowsLastEncode(enc: Encoder, thumbnail: Dims -> Dims, size: Dims, quality: int, maxKB: real)
    requires ThumbnailAssumed(size, thumbnail)
    ensures var r := CompressImage(enc, thumbnail, size, quality, maxKB);
            r.Compressed? ==>
              var last := r.attempts[|r.attempts| - 1];
              r.report == Report(last.bytes, last.quality, PreShrink(size, thumbnail))
  {
    var img := PreShrink(size, thumbnail);
    SearchReportsLastEncode(enc, img, Encode(enc, quality, img), maxKB);
  }

  function CompressImage(enc: Encoder, thumbnail: Dims -> Dims, size: Dims, quality: int, maxKB: real): (r: Outcome)
    requires ThumbnailAssumed(size, thumbnail)
    ensures 1 <= |r.attempts| <= MaxEncodes
    // the first encode is at the requested quality, unclamped, on the Phase-0 image
    ensures r.attempts[0] == Encode(enc, quality, PreShrink(size, thumbnail))
    // the report shows the Phase-0 dimensions, whatever Phase 2 wrote
    ensures r.Compressed? ==> r.report.dims == PreShrink(size, thumbnail)
    // an image whose Phase-0 sides are at least 2 pixels never fails in Phase 2's resize
    ensures PreShrink(size, thumbnail).width >= 2 && PreShrink(size, thumbnail).height >= 2 ==> r.Compressed?
  {
    var img := PreShrink(size, thumbnail);
    Search(enc, img, Encode(enc, quality, img), maxKB)
  }
}

=== FILE: compress_properties.dfy ===
/** Properties of one `compress_image` run, stated over the whole sequence of
    encodes it makes. */
module CompressProperties {
  import opened Encoding
  import opened Resize
  import opened QualitySearch
  import opened Downscale
  import opened Compress

  /** How a run is put together: the first encode, then Phase 1's probes, then
      Phase 2's attempts. */
  lemma Anatomy(enc: Encoder, img: Dims, first: Attempt, maxKB: real)
    requires first.dims == img
    ensures var p1 := SearchQuality(enc, img, maxKB, first.quality, first.bytes);
            var p2 := DownscaleLoop(enc, img, p1.quality, maxKB, p1.bytes);
            var r := Search(enc, img, first, maxKB);
            && r.attempts == [first] + p1.probes + p2.attempts
            && (r.ResizeFailed? <==> p2.rejected)
            && (p2.attempts != [] ==> |p1.probes| == |Ladder| && p1.quality == 71)
  {
  }

  /** The same on the search after Phase 0, for any first encode. */
  lemma SearchStopsAtFirstFit(enc: Encoder, img: Dims, first: Attempt, maxKB: real)
    requires first.dims == img
    ensures var a := Search(enc, img, first, maxKB).attempts;
            forall i :: 0 <= i < |a| - 1 ==> OverBudget(a[i].bytes, maxKB)
    ensures var r := Search(enc, img, first, maxKB);
            r.ResizeFailed? ==> OverBudget(r.attempts[|r.attempts| - 1].bytes, maxKB)
  {
    Anatomy(enc, img, first, maxKB);
    var p1 := SearchQuality(enc, img, maxKB, first.quality, first.bytes);
    var p2 := DownscaleLoop(enc, img, p1.quality, maxKB, p1.bytes);
    assert AllButLastOver(p1.probes, maxKB);
    assert AllButLastOver(p2.attempts, maxKB);
    JoinStops(first, p1.probes, p2.attempts, maxKB);
    LastOfJoin(first, p1.probes, p2.attempts);
  }

  ghost predicate AllButLastOver(s: seq<Attempt>, maxKB: real) {
    forall i :: 0 <= i < |s| - 1 ==> OverBudget(s[i].bytes, maxKB)
  }

  /** Joining three stretches that each stop at their first fit, where a
      stretch only follows an over-budget encode. */
  lemma JoinStops(x: Attempt, s: seq<Attempt>, t: seq<Attempt>, maxKB: real)
    requires AllButLastOver(s, maxKB) && AllButLastOver(t, maxKB)
    requires s != [] || t != [] ==> OverBudget(x.bytes, maxKB)
    requires s != [] && t != [] ==> OverBudget(s[|s| - 1].bytes, maxKB)
    ensures AllButLastOver([x] + s + t, maxKB)
  {
    var a := [x] + s + t;
    forall i | 0 <= i < |a| - 1
      ensures OverBudget(a[i].bytes, maxKB)
    {
      if i > |s| {
        assert a[i] == t[i - 1 - |s|];
      } else if i > 0 {
        assert a[i] == s[i - 1];
      }
    }
  }

  /** Every encode but the last was over budget: both loops stop at the first
      encode that fits. A run that fails in Phase 2 fails over budget. */
  lemma StopsAtFirstFit(enc: Encoder, thumbnail: Dims -> Dims, size: Dims, quality: int, maxKB: real)
    requires ThumbnailAssumed(size, thumbnail)
    ensures var a := CompressImage(enc, thumbnail, size, quality, maxKB).attempts;
            forall i :: 0 <= i < |a| - 1 ==> OverBudget(a[i].bytes, maxKB)
    ensures var r := CompressImage(enc, thumbnail, size, quality, maxKB);
            r.ResizeFailed? ==> OverBudget(r.attempts[|r.attempts| - 1].bytes, maxKB)
  {
    var img := PreShrink(size, thumbnail);
    SearchStopsAtFirstFit(enc, img, Encode(enc, quality, img), maxKB);
  }

  /** The exact encode sequence. After the first encode come the ladder
      qualities 84, 77, 73, 71 on the Phase-0 image, and after those the
      downscales by 9/10, 8/10, ... of the Phase-0 image, all at quality 71:
      Phase 2 can only start once every rung has been tried. */
  lemma ExactTrace(enc: Encoder, thumbnail: Dims -> Dims, size: Dims, quality: int, maxKB: real)
    requires ThumbnailAssumed(size, thumbnail)
    ensures var img := PreShrink(size, thumbnail);
            var a := CompressImage(enc, thumbnail, size, quality, maxKB).attempts;
            && (forall i :: 1 <= i < |a| && i <= |Ladder| ==> a[i].quality == Ladder[i - 1] && a[i].dims == img)
            && (forall i :: |Ladder| < i < |a| ==>
                  a[i].quality == 71 && a[i].dims == Scaled(img, FirstTenths + |Ladder| + 1 - i))
    // the probe after an over-budget first encode is 84, whatever was requested
    ensures var a := CompressImage(enc, thumbnail, size, quality, maxKB).attempts;
            OverBudget(a[0].bytes, maxKB) ==> |a| >= 2 && a[1].quality == 84
  {
    var img := PreShrink(size, thumbnail);
    var first := Encode(enc, quality, img);
    Anatomy(enc, img, first, maxKB);
    var p1 := SearchQuality(enc, img, maxKB, first.quality, first.bytes);
    var p2 := DownscaleLoop(enc, img, p1.quality, maxKB, p1.bytes);
    assert LadderShaped(p1.probes, img);
    assert ScaleShaped(p2.attempts, img, p1.quality);
    JoinShape(img, first, p1.probes, p2.attempts);
  }

  ghost predicate LadderShaped(s: seq<Attempt>, img: Dims) {
    |s| <= |Ladder| && forall k :: 0 <= k < |s| ==> s[k].quality == Ladder[k] && s[k].dims == img
  }

  ghost predicate ScaleShaped(t: seq<Attempt>, img: Dims, quality: int) {
    |t| <= 5 && forall k :: 0 <= k < |t| ==> t[k].quality == quality && t[k].dims == Scaled(img, FirstTenths - k)
  }

  lemma JoinShape(img: Dims, x: Attempt, s: seq<Attempt>, t: seq<Attempt>)
    requires LadderShaped(s, img)
    requires ScaleShaped(t, img, 71)
    requires t != [] ==> |s| == |Ladder|
    ensures var a := [x] + s + t;
            && (forall i :: 1 <= i < |a| && i <= |Ladder| ==> a[i].quality == Ladder[i - 1] && a[i].dims == img)
            && (forall i :: |Ladder| < i < |a| ==>
                  a[i].quality == 71 && a[i].dims == Scaled(img, FirstTenths + |Ladder| + 1 - i))
  {
    var a := [x] + s + t;
    forall i | 1 <= i < |a| && i <= |Ladder|
      ensures a[i].quality == Ladder[i - 1] && a[i].dims == img
    {
      assert a[i] == s[i - 1];
    }
    forall i | |Ladder| < i < |a|
      ensures a[i].quality == 71 && a[i].dims == Scaled(img, FirstTenths + |Ladder| + 1 - i)
    {
      assert a[i] == t[i - 1 - |s|];
    }
  }

  /** Graceful degrade: a run that finishes over budget has spent all ten
      encodes, and it still reports rather than failing. */
  lemma GracefulDegrade(enc: Encoder, thumbnail: Dims -> Dims, size: Dims, quality: int, maxKB: real)
    requires ThumbnailAssumed(size, thumbnail)
    ensures var r := CompressImage(enc, thumbnail, size, quality, maxKB);
            r.Compressed? && OverBudget(r.report.bytes, maxKB) ==> |r.attempts| == MaxEncodes
  {
    var img := PreShrink(size, thumbnail);
    var first := Encode(enc, quality, img);
    Anatomy(enc, img, first, maxKB);
    var p1 := SearchQuality(enc, img, maxKB, first.quality, first.bytes);
    var p2 := DownscaleLoop(enc, img, p1.quality, maxKB, p1.bytes);
    var r := CompressImage(enc, thumbnail, size, quality, maxKB);
    if r.Compressed? && OverBudget(r.report.bytes, maxKB) {
      assert OverBudget(p2.bytes, maxKB);
      assert OverBudget(p1.bytes, maxKB);
      assert |p1.probes| == |Ladder|;
      assert |p2.attempts| == 5;
    }
  }

  /** If the first encode fits, it is the only one: Phases 1 and 2 do nothing
      and the requested quality is reported as is. */
  lemma EarlyExit(enc: Encoder, thumbnail: Dims -> Dims, size: Dims, quality: int, maxKB: real)
    requires ThumbnailAssumed(size, thumbnail)
    requires !OverBudget(enc(quality, PreShrink(size, thumbnail)), maxKB)
    ensures var img := PreShrink(size, thumbnail);
            var b := enc(quality, img);
            CompressImage(enc, thumbnail, size, quality, maxKB)
              == Compressed([Attempt(quality, img, b)], Report(b, quality, img))
  {
    var img := PreShrink(size, thumbnail);
    Anatomy(enc, img, Encode(enc, quality, img), maxKB);
  }

  /** Every encode is what the oracle reports for its settings, and none is
      of an image larger than the input. */
  lemma EncodesWithinInput(enc: Encoder, thumbnail: Dims -> Dims, size: Dims, quality: int, maxKB: real)
    requires ThumbnailAssumed(size, thumbnail)
    ensures var a := CompressImage(enc, thumbnail, size, quality, maxKB).attempts;
            forall i :: 0 <= i < |a| ==> Measured(enc, a[i]) && Within(a[i].dims, size)
  {
    var img := PreShrink(size, thumbnail);
    var first := Encode(enc, quality, img);
    Anatomy(enc, img, first, maxKB);
    var p1 := SearchQuality(enc, img, maxKB, first.quality, first.bytes);
    var p2 := DownscaleLoop(enc, img, p1.quality, maxKB, p1.bytes);
    assert AllMeasuredWithin(enc, p1.probes, img);
    assert AllMeasuredWithin(enc, p2.attempts, img);
    JoinMeasuredWithin(enc, img, first, p1.probes, p2.attempts);
  }

  ghost predicate AllMeasuredWithin(enc: Encoder, s: seq<Attempt>, bound: Dims) {
    forall i :: 0 <= i < |s| ==> Measured(enc, s[i]) && Within(s[i].dims, bound)
  }

  lemma JoinMeasuredWithin(enc: Encoder, bound: Dims, x: Attempt, s: seq<Attempt>, t: seq<Attempt>)
    requires Measured(enc, x) && Within(x.dims, bound)
    requires AllMeasuredWithin(enc, s, bound) && AllMeasuredWithin(enc, t, bound)
    ensures AllMeasuredWithin(enc, [x] + s + t, bound)
  {
    var a := [x] + s + t;
    forall i | 0 <= i < |a|
      ensures Measured(enc, a[i]) && Within(a[i].dims, bound)
    {
      if i > |s| {
        assert a[i] == t[i - 1 - |s|];
      } else if i > 0 {
        assert a[i] == s[i - 1];
      }
    }
  }

  /** Dimensions never grow during a run: each encode is of an image no larger
      than the one before it. */
  lemma DimensionsNeverGrow(enc: Encoder, thumbnail: Dims -> Dims, size: Dims, quality: int, maxKB: real)
    requires ThumbnailAssumed(size, thumbnail)
    ensures var a := CompressImage(enc, thumbnail, size, quality, maxKB).attempts;
            forall i, j :: 0 <= i <= j < |a| ==> Within(a[j].dims, a[i].dims)
  {
    var a := CompressImage(enc, thumbnail, size, quality, maxKB).attempts;
    ExactTrace(enc, thumbnail, size, quality, maxKB);
    forall i, j | 0 <= i <= j < |a|
      ensures Within(a[j].dims, a[i].dims)
    {
      PairShrinks(PreShrink(size, thumbnail), a, i, j);
    }
  }

  /** One pair of a trace shaped as `ExactTrace` describes. */
  lemma PairShrinks(img: Dims, a: seq<Attempt>, i: nat, j: nat)
    requires i <= j < |a| <= MaxEncodes
    requires a[0].dims == img
    requires forall k :: 1 <= k < |a| && k <= |Ladder| ==> a[k].dims == img
    requires forall k :: |Ladder| < k < |a| ==> a[k].dims == Scaled(img, FirstTenths + |Ladder| + 1 - k)
    ensures Within(a[j].dims, a[i].dims)
  {
    if j > |Ladder| {
      var kj := FirstTenths + |Ladder| + 1 - j;
      assert a[j].dims == Scaled(img, kj);
      if i > |Ladder| {
        var ki := FirstTenths + |Ladder| + 1 - i;
        assert a[i].dims == Scaled(img, ki);
        ScaledMonotone(img, kj, ki);
      } else {
        assert a[i].dims == img;
        ScaledMonotone(img, kj, 10);
      }
    } else {
      assert a[i].dims == img && a[j].dims == img;
    }
  }

  /** The reported dimensions are the Phase-0 image's, not those of the file
      Phase 2 wrote: once Phase 2 has run, the two differ. */
  lemma ReportedDimsArePhaseZero(enc: Encoder, thumbnail: Dims -> Dims, size: Dims, quality: int, maxKB: real)
    requires ThumbnailAssumed(size, thumbnail)
    ensures var r := CompressImage(enc, thumbnail, size, quality, maxKB);
            r.Compressed? && |r.attempts| > 1 + |Ladder| ==>
              var last := r.attempts[|r.attempts| - 1];
              r.report.dims == PreShrink(size, thumbnail) && last.dims.width < r.report.dims.width
  {
    var img := PreShrink(size, thumbnail);
    var r := CompressImage(enc, thumbnail, size, quality, maxKB);
    ExactTrace(enc, thumbnail, size, quality, maxKB);
    if r.Compressed? && |r.attempts| > 1 + |Ladder| {
      var first := Encode(enc, quality, img);
      Anatomy(enc, img, first, maxKB);
      var p1 := SearchQuality(enc, img, maxKB, first.quality, first.bytes);
      var p2 := DownscaleLoop(enc, img, p1.quality, maxKB, p1.bytes);
      assert p2.attempts[0].dims == Scaled(img, FirstTenths) && p2.attempts[0].dims.width > 0;
      DownscaledLastIsNarrower(img, r.attempts);
    }
  }

  /** In a trace shaped as `ExactTrace` describes, an encode made by Phase 2
      is narrower than the Phase-0 image. */
  lemma DownscaledLastIsNarrower(img: Dims, a: seq<Attempt>)
    requires img.width > 0
    requires 1 + |Ladder| < |a| <= MaxEncodes
    requires forall k :: |Ladder| < k < |a| ==> a[k].dims == Scaled(img, FirstTenths + |Ladder| + 1 - k)
    ensures a[|a| - 1].dims.width < img.width
  {
    var n := |a| - 1;
    assert a[n].dims == Scaled(img, FirstTenths + |Ladder| + 1 - n);
    ScaledShrinks(img, FirstTenths + |Ladder| + 1 - n);
  }
}

=== FILE: downscale.dfy ===
/** Phase 2 of `compress_image`: the bounded downscale fallback at the quality
    Phase 1 left behind. */
module Downscale {
  import opened Encoding
  import opened Resize

  /** `scale_factor = 0.9`, in tenths. */
  const FirstTenths: nat := 9

  /** The smallest factor the loop uses. The guard is `scale_factor > 0.5`, but
      after four subtractions of 0.1 the float is 0.5000000000000001, so the
      factor 5/10 is still admitted. */
  const LastTenths: nat := 5

  /** The number of encodes the loop can make starting from `tenths`. */
  function Room(tenths: nat): nat {
    if tenths >= LastTenths then tenths - LastTenths + 1 else 0
  }

  /** State after the loop: the size of the last encode, the encodes made, and
      whether it stopped because `img.resize` was asked for a side of zero
      pixels (Pillow raises `ValueError` there, ending the request). */
  datatype Phase2 = Phase2(bytes: nat, attempts: seq<Attempt>, rejected: bool)

  /** The loop from factor `tenths`, given the size `bytes` of the last encode.
      Every pass scales `img` itself, not the previous resize. */
  function Shrink(enc: Encoder, img: Dims, quality: int, maxKB: real, tenths: nat, bytes: nat): (r: Phase2)
    decreases tenths
    ensures |r.attempts| <= Room(tenths)
    ensures forall i :: 0 <= i < |r.attempts| ==>
              i < tenths && r.attempts[i].quality == quality && Measured(enc, r.attempts[i])
              && r.attempts[i].dims == Scaled(img, tenths - i)
    // a resize to a zero side is never encoded: it stops the loop with an error
    ensures forall i :: 0 <= i < |r.attempts| ==> r.attempts[i].dims.width > 0 && r.attempts[i].dims.height > 0
    ensures forall i :: 0 <= i < |r.attempts| - 1 ==> OverBudget(r.attempts[i].bytes, maxKB)
    ensures r.bytes == if r.attempts == [] then bytes else r.attempts[|r.attempts| - 1].bytes
    // a size within budget is left alone
    ensures !OverBudget(bytes, maxKB) ==> r == Phase2(bytes, [], false)
    // still over budget without an error means every factor was tried
    ensures OverBudget(r.bytes, maxKB) && !r.rejected ==> |r.attempts| == Room(tenths)
    ensures r.rejected ==>
              && |r.attempts| < tenths - LastTenths + 1
              && OverBudget(r.bytes, maxKB)
              && var s := Scaled(img, tenths - |r.attempts|); s.width == 0 || s.height == 0
  {
    if OverBudget(bytes, maxKB) && tenths >= LastTenths then
      var s := Scaled(img, tenths);
      if s.width == 0 || s.height == 0 then
        Phase2(bytes, [], true)
      else
        var a := Encode(enc, quality, s);
        var rest := Shrink(enc, img, quality, maxKB, tenths - 1, a.bytes);
        Phase2(rest.bytes, [a] + rest.attempts, rest.rejected)
    else
      Phase2(bytes, [], false)
  }

  /** Phase 2 as the source runs it: factors 0.9 down to 0.5. */
  function DownscaleLoop(enc: Encoder, img: Dims, quality: int, maxKB: real, bytes: nat): (r: Phase2)
    ensures |r.attempts| <= 5
    ensures forall i :: 0 <= i < |r.attempts| ==>
              && r.attempts[i].quality == quality
              && r.attempts[i].dims == Scaled(img, FirstTenths - i)
              && Within(r.attempts[i].dims, img)
              && Measured(enc, r.attempts[i])
    ensures forall i :: 0 <= i < |r.attempts| ==> r.attempts[i].dims.width > 0 && r.attempts[i].dims.height > 0
    ensures forall i :: 0 <= i < |r.attempts| - 1 ==> OverBudget(r.attempts[i].bytes, maxKB)
    ensures r.bytes == if r.attempts == [] then bytes else r.attempts[|r.attempts| - 1].bytes
    ensures !OverBudget(bytes, maxKB) ==> r == Phase2(bytes, [], false)
    ensures OverBudget(r.bytes, maxKB) && !r.rejected ==> |r.attempts| == 5
    // an image at least 2x2 is never resized to nothing
    ensures img.width >= 2 && img.height >= 2 ==> !r.rejected
  {
    ShrinkFacts(enc, img, quality, maxKB, FirstTenths, bytes);
    Shrink(enc, img, quality, maxKB, FirstTenths, bytes)
  }

  /** Every attempt from a factor of at most one fits inside `img`, and sides of
      at least two pixels never scale to zero at the factors the loop uses. */
  lemma ShrinkFacts(enc: Encoder, img: Dims, quality: int, maxKB: real, tenths: nat, bytes: nat)
    requires tenths <= 10
    ensures var r := Shrink(enc, img, quality, maxKB, tenths, bytes);
            forall i :: 0 <= i < |r.attempts| ==> Within(r.attempts[i].dims, img)
    ensures img.width >= 2 && img.height >= 2 ==> !Shrink(enc, img, quality, maxKB, tenths, bytes).rejected
  {
    var r := Shrink(enc, img, quality, maxKB, tenths, bytes);
    forall i | 0 <= i < |r.attempts|
      ensures Within(r.attempts[i].dims, img)
    {
      ScaledMonotone(img, tenths - i, 10);
    }
    if img.width >= 2 && img.height >= 2 && r.rejected {
      ScaledNonEmpty(img, tenths - |r.attempts|);
    }
  }

  /** Successive attempts never grow: each is within the one before it. */
  lemma AttemptsShrink(enc: Encoder, img: Dims, quality: int, maxKB: real, bytes: nat, i: nat, j: nat)
    requires i <= j < |DownscaleLoop(enc, img, quality, maxKB, bytes).attempts|
    ensures var a := DownscaleLoop(enc, img, quality, maxKB, bytes).attempts;
            Within(a[j].dims, a[i].dims)
  {
    var a := DownscaleLoop(enc, img, quality, maxKB, bytes).attempts;
    ScaledPairShrinks(img, a, i, j);
  }

  /** One pair of a sequence of attempts at factors 9/10, 8/10, ... of `img`. */
  lemma ScaledPairShrinks(img: Dims, a: seq<Attempt>, i: nat, j: nat)
    requires i <= j < |a| <= 5
    requires forall k :: 0 <= k < |a| ==> a[k].dims == Scaled(img, FirstTenths - k)
    ensures Within(a[j].dims, a[i].dims)
  {
    ScaledMonotone(img, FirstTenths - j, FirstTenths - i);
  }
}

=== FILE: encoding.dfy ===
/** The encoder boundary of `compress_image`: image dimensions, the encoded-size
    oracle that stands in for the WebP codec, and the size-budget test. */
module Encoding {

  /** Pixel dimensions of an image (PIL's `img.size`). */
  datatype Dims = Dims(width: nat, height: nat)

  /** The longer side, `max(img.size)`. */
  function LongSide(d: Dims): (r: nat)
    ensures r == d.width || r == d.height
    ensures d.width <= r && d.height <= r
  {
    if d.width >= d.height then d.width else d.height
  }

  /** `a` fits inside `b` side by side. */
  predicate Within(a: Dims, b: Dims) {
    a.width <= b.width && a.height <= b.height
  }

  /** The codec as an oracle: the number of bytes the WebP file has when an
      image of the given dimensions is saved at the given quality. Nothing is
      assumed about it, in particular not that it is monotone in quality. The
      quality is an unbounded `int` because the source never clamps it. */
  type Encoder = (int, Dims) -> nat

  /** One `save(..., "webp", quality=...)` followed by `getsize`. */
  datatype Attempt = Attempt(quality: int, dims: Dims, bytes: nat)

  function Encode(enc: Encoder, quality: int, dims: Dims): Attempt {
    Attempt(quality, dims, enc(quality, dims))
  }

  /** The last element of `[x] + s + t`. */
  lemma LastOfJoin(x: Attempt, s: seq<Attempt>, t: seq<Attempt>)
    ensures var a := [x] + s + t;
            a[|a| - 1] == if t != [] then t[|t| - 1] else if s != [] then s[|s| - 1] else x
  {
  }

  /** The attempt really is what the oracle reports for its settings. */
  predicate Measured(enc: Encoder, a: Attempt) {
    a.bytes == enc(a.quality, a.dims)
  }

  /** `getsize(output) / 1024 > max_size_kb`. Dividing a byte count by 1024 is
      exact in binary floating point, so the real-number quotient is the one
      the source compares. */
  predicate OverBudget(bytes: nat, maxKB: real) {
    (bytes as real) / 1024.0 > maxKB
  }

  /** For a whole-kilobyte budget the test is the integer comparison
      `bytes > maxKB * 1024`, and meeting the budget means at most that many
      bytes. */
  lemma WholeKilobyteBudget(bytes: nat, maxKB: int)
    ensures OverBudget(bytes, maxKB as real) <==> bytes > maxKB * 1024
    ensures !OverBudget(bytes, maxKB as real) <==> bytes <= maxKB * 1024
  {
    var q := (bytes as real) / 1024.0;
    assert q * 1024.0 == bytes as real;
    if bytes > maxKB * 1024 {
      assert bytes as real > (maxKB * 1024) as real;
    } else {
      assert bytes as real <= (maxKB * 1024) as real;
    }
  }
}

=== FILE: file_names.dfy ===
/** The per-file decisions of `process_image`: which directory entries are
    compressed, and the name of the WebP file each one becomes. */
module FileNames {

  /** `str.lower()` on one character, for ASCII letters. */
  function LowerChar(c: char): char {
    if 'A' <= c <= 'Z' then (c as int + 32) as char else c
  }

  /** `str.lower()`: no upper-case letter is left, each upper-case letter
      becomes the same letter in lower case, and every other character is
      kept. */
  function Lower(s: string): (r: string)
    ensures |r| == |s|
    ensures forall i :: 0 <= i < |r| ==> !('A' <= r[i] <= 'Z')
    ensures forall i :: 0 <= i < |s| && 'A' <= s[i] <= 'Z' ==>
              'a' <= r[i] <= 'z' && r[i] as int - 'a' as int == s[i] as int - 'A' as int
    ensures forall i :: 0 <= i < |s| && !('A' <= s[i] <= 'Z') ==> r[i] == s[i]
  {
    seq(|s|, i requires 0 <= i < |s| => LowerChar(s[i]))
  }

  /** Lowering twice changes nothing more. */
  lemma LowerIdempotent(s: string)
    ensures Lower(Lower(s)) == Lower(s)
  {
    var l := Lower(s);
    assert forall i :: 0 <= i < |s| ==> LowerChar(l[i]) == l[i];
  }

  predicate EndsWith(s: string, suffix: string) {
    |suffix| <= |s| && s[|s| - |suffix|..] == suffix
  }

  /** `filename.lower().endswith(('.png', '.jpg', '.jpeg', '.webp'))`. */
  const ImageSuffixes: seq<string> := [".png", ".jpg", ".jpeg", ".webp"]

  predicate IsImageName(name: string) {
    var l := Lower(name);
    EndsWith(l, ".png") || EndsWith(l, ".jpg") || EndsWith(l, ".jpeg") || EndsWith(l, ".webp")
  }

  /** The filter accepts a name exactly when its lower-case form ends in one
      of the listed image suffixes. */
  lemma ImageNameMatchesSuffix(name: string)
    ensures IsImageName(name) <==>
            exists i :: 0 <= i < |ImageSuffixes| && EndsWith(Lower(name), ImageSuffixes[i])
  {
    var l := Lower(name);
    assert ImageSuffixes[0] == ".png" && ImageSuffixes[1] == ".jpg";
    assert ImageSuffixes[2] == ".jpeg" && ImageSuffixes[3] == ".webp";
    if IsImageName(name) {
      if EndsWith(l, ".png") { assert EndsWith(l, ImageSuffixes[0]); }
      else if EndsWith(l, ".jpg") { assert EndsWith(l, ImageSuffixes[1]); }
      else if EndsWith(l, ".jpeg") { assert EndsWith(l, ImageSuffixes[2]); }
      else { assert EndsWith(l, ImageSuffixes[3]); }
    }
  }

  /** The extension filter ignores letter case: a name is accepted exactly
      when its lower-case form is. */
  lemma ImageFilterIgnoresCase(name: string)
    ensures IsImageName(name) <==> IsImageName(Lower(name))
  {
    LowerIdempotent(name);
  }

  /** `s.rfind(c)`: the last index of `c`, or -1. */
  function RFind(s: string, c: char): (r: int)
    ensures -1 <= r < |s|
    ensures r >= 0 ==> s[r] == c
    ensures forall k :: r < k < |s| ==> s[k] != c
  {
    if s == [] then -1
    else if s[|s| - 1] == c then |s| - 1
    else RFind(s[..|s| - 1], c)
  }

  /** The leading-dot scan of `splitext`: some character of `p[lo..hi]` is
      not a dot. */
  function NonDotIn(p: string, lo: int, hi: int): (b: bool)
    requires 0 <= lo <= hi <= |p|
    decreases hi - lo
    ensures b <==> exists k :: lo <= k < hi && p[k] != '.'
  {
    if lo == hi then false
    else if p[lo] != '.' then true
    else NonDotIn(p, lo + 1, hi)
  }

  datatype PathSplit = PathSplit(root: string, ext: string)

  /** `posixpath.splitext`: split at the last dot of the final path component,
      unless everything before that dot in the component is dots, in which
      case the extension is empty (so `.png` has no extension). */
  function SplitExt(p: string): (r: PathSplit)
    ensures r.root + r.ext == p
    ensures r.ext == [] || (r.ext[0] == '.' && forall k :: 1 <= k < |r.ext| ==> r.ext[k] != '.')
    ensures forall k :: 0 <= k < |r.ext| ==> r.ext[k] != '/'
  {
    var sep := RFind(p, '/');
    var dot := RFind(p, '.');
    if dot > sep && NonDotIn(p, sep + 1, dot) then PathSplit(p[..dot], p[dot..])
    else PathSplit(p, [])
  }

  /** The final path component has a dot with some non-dot character before it. */
  ghost predicate HasExtension(p: string) {
    exists j, i :: 0 <= j < i < |p| && p[j] != '.' && p[i] == '.' && NoSlashFrom(p, j)
  }

  ghost predicate NoSlashFrom(p: string, j: nat) {
    forall k :: j <= k < |p| ==> p[k] != '/'
  }

  /** `splitext` finds an extension exactly when the last component has a dot
      preceded by a non-dot character, and the extension then starts at the
      last dot of the path. */
  lemma SplitExtFindsExtension(p: string)
    ensures SplitExt(p).ext != [] <==> HasExtension(p)
    ensures SplitExt(p).ext != [] ==> SplitExt(p).ext == p[RFind(p, '.')..]
  {
    var sep := RFind(p, '/');
    var dot := RFind(p, '.');
    if SplitExt(p).ext != [] {
      var j :| sep + 1 <= j < dot && p[j] != '.';
      assert NoSlashFrom(p, j);
    }
    if HasExtension(p) {
      var j, i :| 0 <= j < i < |p| && p[j] != '.' && p[i] == '.' && NoSlashFrom(p, j);
      assert sep < j;
      assert i <= dot;
      assert NonDotIn(p, sep + 1, dot);
    }
  }

  /** A name made of a stem whose last component has a non-dot character and a
      dot-led extension without further dots or slashes splits back into
      exactly those two parts. */
  lemma SplitExtOfStemAndExt(stem: string, ext: string)
    requires |ext| >= 1 && ext[0] == '.'
    requires forall k :: 1 <= k < |ext| ==> ext[k] != '.' && ext[k] != '/'
    requires exists j :: 0 <= j < |stem| && stem[j] != '.' && NoSlashFrom(stem, j)
    ensures SplitExt(stem + ext) == PathSplit(stem, ext)
  {
    var p := stem + ext;
    var j :| 0 <= j < |stem| && stem[j] != '.' && NoSlashFrom(stem, j);
    assert p[j] != '.' && p[|stem|] == '.';
    assert NoSlashFrom(p, j) by {
      forall k | j <= k < |p|
        ensures p[k] != '/'
      {
        if k < |stem| { assert p[k] == stem[k]; } else { assert p[k] == ext[k - |stem|]; }
      }
    }
    assert HasExtension(p);
    SplitExtFindsExtension(p);
    var dot := RFind(p, '.');
    assert dot == |stem| by {
      assert p[|stem|] == '.';
      forall k | |stem| < k < |p|
        ensures p[k] != '.'
      {
        assert p[k] == ext[k - |stem|];
      }
    }
    assert p[dot..] == ext;
  }

  /** `os.path.splitext(filename)[0] + '.webp'`. */
  function OutputName(name: string): (r: string)
    ensures EndsWith(r, ".webp")
    ensures |r| <= |name| + 5
  {
    SplitExt(name).root + ".webp"
  }

  /** Lowering maps dots and slashes to themselves and nothing else to them. */
  lemma LowerCharKeepsPunctuation(c: char)
    ensures LowerChar(c) == '.' <==> c == '.'
    ensures LowerChar(c) == '/' <==> c == '/'
  {
  }

  /** A dot followed by characters that are neither dots nor slashes, the
      shape of every image suffix. */
  predicate DotThenPlain(s: string) {
    |s| >= 1 && s[0] == '.' && forall k :: 1 <= k < |s| ==> s[k] != '.' && s[k] != '/'
  }

  lemma ImageSuffixesAreDotThenPlain(suffix: string)
    requires suffix in ImageSuffixes
    ensures DotThenPlain(suffix)
  {
  }

  /** Lowering commutes with taking a suffix. */
  lemma LowerOfSuffix(s: string, n: nat)
    requires n <= |s|
    ensures Lower(s[n..]) == Lower(s)[n..]
  {
    var a := Lower(s[n..]);
    var b := Lower(s)[n..];
    assert |a| == |b|;
    forall k | 0 <= k < |a|
      ensures a[k] == b[k]
    {
      assert s[n..][k] == s[n + k];
    }
  }

  /** A name ending in one of the image suffixes, in any letter case, ends in
      a dot followed by neither dots nor slashes. */
  lemma ImageSuffixShape(ext: string, suffix: string)
    requires DotThenPlain(suffix)
    requires Lower(ext) == suffix
    ensures DotThenPlain(ext)
  {
    forall k | 0 <= k < |ext|
      ensures (ext[k] == '.' <==> suffix[k] == '.') && (ext[k] == '/' <==> suffix[k] == '/')
    {
      assert Lower(ext)[k] == LowerChar(ext[k]);
      LowerCharKeepsPunctuation(ext[k]);
    }
  }

  /** The first `n` characters of `name` hold a non-dot character after which
      no slash follows: the last path component has a real stem there. */
  ghost predicate StemHasNonDot(name: string, n: int) {
    exists j :: 0 <= j < n && j < |name| && name[j] != '.' && NoSlashFrom(name, j)
  }

  /** For an accepted name whose stem has a non-dot character, the output name
      replaces the matched image extension, whatever its case, by `.webp`. */
  lemma OutputNameReplacesImageExtension(name: string, suffix: string)
    requires suffix in ImageSuffixes
    requires EndsWith(Lower(name), suffix)
    requires StemHasNonDot(name, |name| - |suffix|)
    ensures OutputName(name) == name[..|name| - |suffix|] + ".webp"
  {
    var n := |name| - |suffix|;
    var stem := name[..n];
    var ext := name[n..];
    assert name == stem + ext;
    LowerOfSuffix(name, n);
    ImageSuffixesAreDotThenPlain(suffix);
    ImageSuffixShape(ext, suffix);
    var j :| 0 <= j < n && j < |name| && name[j] != '.' && NoSlashFrom(name, j);
    assert stem[j] != '.' && NoSlashFrom(stem, j);
    SplitExtOfStemAndExt(stem, ext);
  }

  /** For an accepted name whose stem is empty or only dots, `splitext` finds
      no extension and the output name is the whole name plus `.webp`. */
  lemma DotStemAppends(name: string, suffix: string)
    requires suffix in ImageSuffixes
    requires EndsWith(Lower(name), suffix)
    requires !StemHasNonDot(name, |name| - |suffix|)
    ensures OutputName(name) == name + ".webp"
  {
    var n := |name| - |suffix|;
    var ext := name[n..];
    LowerOfSuffix(name, n);
    ImageSuffixesAreDotThenPlain(suffix);
    ImageSuffixShape(ext, suffix);
    SplitExtFindsExtension(name);
  }

  /** Two entries that differ only in their image suffix, after a stem with a
      real character, get the same output name: the later conversion
      overwrites the earlier one's file. */
  lemma SameStemSameOutput(stem: string, x: string, y: string)
    requires x in ImageSuffixes && y in ImageSuffixes
    requires exists j :: 0 <= j < |stem| && stem[j] != '.' && NoSlashFrom(stem, j)
    ensures OutputName(stem + x) == OutputName(stem + y) == stem + ".webp"
  {
    ImageSuffixesAreDotThenPlain(x);
    ImageSuffixesAreDotThenPlain(y);
    SplitExtOfStemAndExt(stem, x);
    SplitExtOfStemAndExt(stem, y);
  }

  /** The output name of an accepted entry, stated for each suffix it may
      end in: the suffix is replaced by `.webp` when the last path component
      has a real stem before it, and `.webp` is appended otherwise. */
  lemma OutputNameOfImage(name: string)
    ensures forall i :: 0 <= i < |ImageSuffixes| && EndsWith(Lower(name), ImageSuffixes[i]) ==>
              OutputName(name) == if StemHasNonDot(name, |name| - |ImageSuffixes[i]|)
                                  then name[..|name| - |ImageSuffixes[i]|] + ".webp"
                                  else name + ".webp"
  {
    forall i | 0 <= i < |ImageSuffixes| && EndsWith(Lower(name), ImageSuffixes[i])
      ensures OutputName(name) == if StemHasNonDot(name, |name| - |ImageSuffixes[i]|)
                                  then name[..|name| - |ImageSuffixes[i]|] + ".webp"
                                  else name + ".webp"
    {
      var x := ImageSuffixes[i];
      if StemHasNonDot(name, |name| - |x|) {
        OutputNameReplacesImageExtension(name, x);
      } else {
        DotStemAppends(name, x);
      }
    }
  }

  /** Leading dots belong to the root: a dot-file named like an extension is
      accepted, keeps its whole name and gains `.webp`. */
  lemma DotFileKeepsName()
    ensures IsImageName(".png") && OutputName(".png") == ".png.webp"
  {
    var e := ".png";
    assert Lower(e) == e;
    assert EndsWith(Lower(e), ".png");
    assert e[0] == '.' && forall k :: 1 <= k < |e| ==> e[k] != '.' && e[k] != '/';
    assert RFind(e, '/') == -1;
    assert RFind(e, '.') == 0;
  }

  /** The same holds however many leading dots there are. */
  lemma DotsOnlyStemKeepsName()
    ensures OutputName("..jpeg") == "..jpeg.webp"
  {
    var d := "..jpeg";
    assert d[1] == '.' && forall k :: 2 <= k < |d| ==> d[k] != '.';
    assert forall k :: 0 <= k < |d| ==> d[k] != '/';
    assert RFind(d, '/') == -1;
    assert RFind(d, '.') == 1;
    assert !NonDotIn(d, 0, 1);
  }

  /** What `process_image` does with one directory entry. */
  datatype Job = Skipped | Convert(output: string)

  function ProcessImage(name: string): (r: Job)
    ensures r.Convert? <==> exists i :: 0 <= i < |ImageSuffixes| && EndsWith(Lower(name), ImageSuffixes[i])
    ensures forall i :: 0 <= i < |ImageSuffixes| && EndsWith(Lower(name), ImageSuffixes[i]) ==>
              r.Convert? && r.output == if StemHasNonDot(name, |name| - |ImageSuffixes[i]|)
                                        then name[..|name| - |ImageSuffixes[i]|] + ".webp"
                                        else name + ".webp"
  {
    ImageNameMatchesSuffix(name);
    OutputNameOfImage(name);
    if IsImageName(name) then Convert(OutputName(name)) else Skipped
  }
}

=== FILE: quality_search.dfy ===
/** Phase 1 of `compress_image`: the bounded bisection over encoder quality. */
module QualitySearch {
  import opened Encoding

  /** The initial bracket `min_quality, max_quality = 70, 98`. */
  const MinQuality: int := 70
  const MaxQuality: int := 98

  /** State when the `while` loop exits: the current quality and size (the
      last encode), the final bracket, and the encodes the loop made. */
  datatype Phase1 = Phase1(quality: int, bytes: nat, lo: int, hi: int, probes: seq<Attempt>)

  /** The bisection loop from bracket `[lo, hi]`, entered with the current
      `quality` and the size `bytes` of the last encode of `img`. Each pass
      encodes at the midpoint, lowers `hi` to it when still over budget and
      raises `lo` to it otherwise. */
  function Bisect(enc: Encoder, img: Dims, maxKB: real, lo: int, hi: int, quality: int, bytes: nat): (r: Phase1)
    requires lo <= hi
    decreases hi - lo
    ensures lo <= r.lo <= r.hi <= hi
    // the loop exits only through its guard
    ensures !OverBudget(r.bytes, maxKB) || r.hi - r.lo <= 2
    ensures r.probes == [] <==> !(OverBudget(bytes, maxKB) && hi - lo > 2)
    ensures r.probes == [] ==> r.quality == quality && r.bytes == bytes && r.lo == lo && r.hi == hi
    ensures r.probes != [] ==> r.quality == r.probes[|r.probes| - 1].quality && r.bytes == r.probes[|r.probes| - 1].bytes
    // every probe lies strictly inside the starting bracket and encodes `img`
    ensures forall i :: 0 <= i < |r.probes| ==>
              lo < r.probes[i].quality < hi && r.probes[i].dims == img && Measured(enc, r.probes[i])
    // the loop stops at the first probe that fits
    ensures forall i :: 0 <= i < |r.probes| - 1 ==> OverBudget(r.probes[i].bytes, maxKB)
    // each probe narrows the bracket by at least one, so there are at most `hi - lo` of them
    ensures |r.probes| <= hi - lo
  {
    if OverBudget(bytes, maxKB) && hi - lo > 2 then
      var q := (lo + hi) / 2;
      var a := Encode(enc, q, img);
      var rest := if OverBudget(a.bytes, maxKB)
                  then Bisect(enc, img, maxKB, lo, q, q, a.bytes)
                  else Bisect(enc, img, maxKB, q, hi, q, a.bytes);
      Phase1(rest.quality, rest.bytes, rest.lo, rest.hi, [a] + rest.probes)
    else
      Phase1(quality, bytes, lo, hi, [])
  }

  /** The qualities the loop actually probes from `[70, 98]`: lo stays 70 while
      the loop runs (a fitting probe ends it), so the midpoints are
      (70+98)/2, (70+84)/2, (70+77)/2, (70+73)/2. */
  const Ladder: seq<int> := [84, 77, 73, 71]

  /** The upper bound of the bracket before probe `i`. */
  const Uppers: seq<int> := [98, 84, 77, 73, 71]

  /** Reference definition of the probes: walk down the ladder from rung `i`,
      stopping after the first rung whose encode fits the budget. */
  function LadderFrom(enc: Encoder, img: Dims, maxKB: real, i: nat): (r: seq<Attempt>)
    requires i <= |Ladder|
    decreases |Ladder| - i
    ensures |r| <= |Ladder| - i
    ensures forall k :: 0 <= k < |r| ==>
              r[k].quality == Ladder[i + k] && r[k].dims == img && Measured(enc, r[k])
    ensures forall k :: 0 <= k < |r| - 1 ==> OverBudget(r[k].bytes, maxKB)
    ensures i < |Ladder| ==> |r| >= 1
    // running off the end of the ladder is the only way to end over budget
    ensures |r| > 0 && OverBudget(r[|r| - 1].bytes, maxKB) ==> |r| == |Ladder| - i
  {
    if i == |Ladder| then []
    else
      var a := Encode(enc, Ladder[i], img);
      [a] + if OverBudget(a.bytes, maxKB) then LadderFrom(enc, img, maxKB, i + 1) else []
  }

  /** The bisection from `[70, Uppers[i]]`, entered over budget, makes exactly
      the ladder's probes from rung `i`; if it ends over budget, lo is still 70
      and the bracket has closed to `[70, 71]`. */
  lemma {:induction false} BisectFollowsLadder(enc: Encoder, img: Dims, maxKB: real, i: nat, quality: int, bytes: nat)
    requires i <= |Ladder|
    requires OverBudget(bytes, maxKB)
    decreases |Ladder| - i
    ensures Bisect(enc, img, maxKB, MinQuality, Uppers[i], quality, bytes).probes == LadderFrom(enc, img, maxKB, i)
    ensures var r := Bisect(enc, img, maxKB, MinQuality, Uppers[i], quality, bytes);
            OverBudget(r.bytes, maxKB) ==> r.lo == MinQuality && r.hi == 71
  {
    if i < |Ladder| {
      var q := Ladder[i];
      assert (MinQuality + Uppers[i]) / 2 == q;
      var a := Encode(enc, q, img);
      var r := Bisect(enc, img, maxKB, MinQuality, Uppers[i], quality, bytes);
      var l := LadderFrom(enc, img, maxKB, i);
      if OverBudget(a.bytes, maxKB) {
        assert Uppers[i + 1] == q;
        var rest := Bisect(enc, img, maxKB, MinQuality, q, q, a.bytes);
        assert r.probes == [a] + rest.probes && r.bytes == rest.bytes && r.lo == rest.lo && r.hi == rest.hi;
        assert l == [a] + LadderFrom(enc, img, maxKB, i + 1);
        BisectFollowsLadder(enc, img, maxKB, i + 1, q, a.bytes);
      } else {
        var rest := Bisect(enc, img, maxKB, q, Uppers[i], q, a.bytes);
        assert rest.probes == [];
        assert r.probes == [a] && r.bytes == a.bytes;
        assert l == [a];
      }
    }
  }

  /** Phase 1 as the source runs it: bracket `[70, 98]`, entered with the
      requested quality and the size of the first encode. */
  function SearchQuality(enc: Encoder, img: Dims, maxKB: real, quality: int, firstBytes: nat): (r: Phase1)
    ensures |r.probes| <= |Ladder|
    ensures OverBudget(firstBytes, maxKB) <==> |r.probes| >= 1
    ensures forall k :: 0 <= k < |r.probes| ==>
              r.probes[k].quality == Ladder[k] && r.probes[k].dims == img && Measured(enc, r.probes[k])
    ensures forall k :: 0 <= k < |r.probes| - 1 ==> OverBudget(r.probes[k].bytes, maxKB)
    // the requested quality survives only when the first encode fits
    ensures r.probes == [] ==> r.quality == quality && r.bytes == firstBytes
    ensures r.probes != [] ==> 71 <= r.quality <= 84 && r.quality == r.probes[|r.probes| - 1].quality
    ensures r.probes != [] ==> r.bytes == r.probes[|r.probes| - 1].bytes
    // ending over budget means every rung was tried and the last was 71
    ensures OverBudget(r.bytes, maxKB) ==> r.probes == [] || (|r.probes| == |Ladder| && r.quality == 71)
    ensures OverBudget(r.bytes, maxKB) ==> r.lo == MinQuality
  {
    if OverBudget(firstBytes, maxKB) then
      BisectFollowsLadder(enc, img, maxKB, 0, quality, firstBytes);
      Bisect(enc, img, maxKB, MinQuality, MaxQuality, quality, firstBytes)
    else
      Bisect(enc, img, maxKB, MinQuality, MaxQuality, quality, firstBytes)
  }

  /** Phase 1 makes exactly the reference ladder's probes: none when the
      first encode fits, otherwise 84, 77, 73, 71 up to the first that fits. */
  lemma SearchQualityFollowsLadder(enc: Encoder, img: Dims, maxKB: real, quality: int, firstBytes: nat)
    ensures SearchQuality(enc, img, maxKB, quality, firstBytes).probes
            == if OverBudget(firstBytes, maxKB) then LadderFrom(enc, img, maxKB, 0) else []
  {
    if OverBudget(firstBytes, maxKB) {
      BisectFollowsLadder(enc, img, maxKB, 0, quality, firstBytes);
    }
  }
}

=== FILE: resize.dfy ===
/** Dimension arithmetic of `compress_image`: the Phase-0 pre-shrink of very
    large images and the integer scaling used by the downscale fallback. */
module Resize {
  import opened Encoding

  /** `max_dimension`: images whose longer side exceeds this are shrunk first. */
  const MaxDimension: nat := 2048

  /** What PIL's `thumbnail((2048, 2048))` is assumed to deliver for an image of
      size `original`: no side grows, the longer side is at most 2048, and a
      non-empty side stays non-empty (PIL rounds a side to at least 1). The
      resampling itself is foreign code and is not modelled. */
  predicate ThumbnailFits(original: Dims, t: Dims) {
    && Within(t, original)
    && LongSide(t) <= MaxDimension
    && (original.width > 0 ==> t.width > 0)
    && (original.height > 0 ==> t.height > 0)
  }

  /** Phase 0: `if max(img.size) > max_dimension: img.thumbnail(...)`. The
      thumbnail call is a parameter; only its result on `size` is consulted,
      and only when the guard holds. */
  function PreShrink(size: Dims, thumbnail: Dims -> Dims): (r: Dims)
    requires LongSide(size) > MaxDimension ==> ThumbnailFits(size, thumbnail(size))
    ensures LongSide(size) <= MaxDimension ==> r == size
    ensures Within(r, size)
    ensures LongSide(r) <= MaxDimension
    ensures size.width > 0 ==> r.width > 0
    ensures size.height > 0 ==> r.height > 0
  {
    if LongSide(size) > MaxDimension then thumbnail(size) else size
  }

  /** `int(dim * scale_factor)` for each side, with the scale factor written as
      `tenths / 10`. For sides up to 2048 and the five factors the loop
      produces (0.9, 0.8, 0.7000000000000001, 0.6000000000000001,
      0.5000000000000001) the truncated floating-point product equals the
      floor of the exact one: each double is at least `tenths / 10` and the
      error is far below the distance to the next integer. */
  function Scaled(d: Dims, tenths: nat): Dims {
    Dims(d.width * tenths / 10, d.height * tenths / 10)
  }

  /** Floor scaling of one side is monotone in the factor and never exceeds
      the side while the factor is at most one. */
  lemma ScaleSideMonotone(n: nat, j: nat, k: nat)
    requires j <= k
    ensures n * j / 10 <= n * k / 10
    ensures k <= 10 ==> n * k / 10 <= n
  {
    assert n * j <= n * k by {
      assert n * k == n * j + n * (k - j);
    }
    if k <= 10 {
      assert n * k <= n * 10 by {
        assert n * 10 == n * k + n * (10 - k);
      }
    }
  }

  /** A scaled copy fits inside the image, and a smaller factor never gives a
      larger copy: dimensions only shrink as the fallback proceeds. */
  lemma ScaledMonotone(d: Dims, j: nat, k: nat)
    requires j <= k <= 10
    ensures Within(Scaled(d, j), Scaled(d, k))
    ensures Within(Scaled(d, k), d)
  {
    ScaleSideMonotone(d.width, j, k);
    ScaleSideMonotone(d.height, j, k);
  }

  /** Below factor one a non-empty side strictly shrinks. */
  lemma ScaledShrinks(d: Dims, k: nat)
    requires k < 10
    ensures d.width > 0 ==> Scaled(d, k).width < d.width
    ensures d.height > 0 ==> Scaled(d, k).height < d.height
  {
    ScaleSideMonotone(d.width, k, 9);
    ScaleSideMonotone(d.height, k, 9);
  }

  /** A scaled side is empty exactly when the side is shorter than `10 / k`;
      in particular sides of at least 2 pixels survive every factor the
      fallback uses (k >= 5). */
  lemma ScaledNonEmpty(d: Dims, k: nat)
    requires 5 <= k
    ensures Scaled(d, k).width > 0 <==> d.width * k >= 10
    ensures Scaled(d, k).height > 0 <==> d.height * k >= 10
    ensures d.width >= 2 && d.height >= 2 ==> Scaled(d, k).width > 0 && Scaled(d, k).height > 0
  {
    if d.width >= 2 {
      assert d.width * k >= 2 * 5;
    }
    if d.height >= 2 {
      assert d.height * k >= 2 * 5;
    }
  }
}
